=== FILE: README.md ===
# Codeflix catalog: Category model

A Dafny model of the Category part of the Codeflix catalog service: the
domain validators (`DomainValidation`), the immutable Category aggregate
(construction, `Update`, `Activate`, `Deactivate`), the five category use
cases (get, create, update, delete, list) over an in-memory repository with a
unit of work, and the reference ordering the repository tests compare search
results against (`CloneCategoriesListOrdered`) together with the fixture's
name/description generators.

The aggregate, the validators and the repository behave as their tests
assert, and each row of the table below cites the test lines that pin the
behaviour down.

Modelling choices:

- Errors are kinds (`Exceptions.Error`: `Null`, `Empty`, `TooShort`,
  `TooLong`, `NotFound`) with their field, bound or id, not message strings:
  the message wording differs between test files ("null or empty" and "empty
  or null"; "less ou equal ... 10.000" and "less or equal ... 10000";
  "Category" and "category").
- A C# `string?` is `Option<string>`; `None` is `null`. An absent optional
  argument (the description of `Update`, the `isActive` of an update request)
  is also `None`.
- Identifiers (Guids) and timestamps (DateTime) are integers; `Guid.NewGuid`
  and `DateTime.Now` are parameters. `Guid.Empty` is 0.
- The aggregate is immutable: `Create` and `Update` return
  `Result<Category, Error>`. A failing update yields no new value, so the
  caller still holds the unchanged category.
- The store is a map from identity to category whose keys are the categories'
  ids. Every use case returns its result, the committed store afterwards, and
  the trace of repository calls (`GetCall`, `CreateCall`, `UpdateCall`,
  `DeleteCall`, `SearchCall`, `CommitCall`). The mock verifications
  (`Times.Once`, `Times.Never`) become counts over the trace.
  `Repository.Committed` replays a trace, with writes held back until a
  commit. Every use case's resulting store is proved equal to the replay of
  its own trace; for Get and List, which never commit, that is the store they
  started from.
- Validation order is: name not null or blank, name at least 3 characters,
  name at most 255 characters, description not null or blank, description
  at most 10000 characters. The first failure decides the error. Lengths are
  the raw `Length`, as DomainValidationTest.cs:81-103 measures them; no
  trimming is modelled.
- Names compare by ordinal (character code) order; LINQ's `OrderBy` is a
  stable sort, modelled as a stable insertion sort. `ToLower` lowers ASCII
  letters only.

## Model

| member | source | states |
|---|---|---|
| DomainValidation.IsWhiteSpace | tests/FC.Codeflix.Catalog.UnitTests/Domain/Validation/DomainValidationTest.cs:36-47 | the character set of `char.IsWhiteSpace`: among ASCII characters exactly space and tab through carriage return; no character above U+3000, and neither the zero-width space nor the byte-order mark |
| DomainValidation.IsBlank | tests/FC.Codeflix.Catalog.UnitTests/Domain/Validation/DomainValidationTest.cs:36-47 | a string counts as blank exactly when every character is .NET white space ("" included) |
| DomainValidation.IsNullOrWhiteSpace | tests/FC.Codeflix.Catalog.UnitTests/Domain/Validation/DomainValidationTest.cs:36-47 | `string.IsNullOrWhiteSpace`: true exactly for null or a string whose every character is white space ("" included) |
| DomainValidation.NotNull | tests/FC.Codeflix.Catalog.UnitTests/Domain/Validation/DomainValidationTest.cs:16-34 | passes exactly for a present value; a null value fails with Null naming the given field |
| DomainValidation.NotNullOrEmpty | tests/FC.Codeflix.Catalog.UnitTests/Domain/Validation/DomainValidationTest.cs:36-58 | passes exactly when the value is present and has a non-white-space character; null, "" and all-blank fail with Empty naming the field |
| DomainValidation.MinLength | tests/FC.Codeflix.Catalog.UnitTests/Domain/Validation/DomainValidationTest.cs:61-103 | passes exactly when the length is at least the minimum; otherwise fails with TooShort carrying the field and the minimum |
| DomainValidation.MaxLength | tests/FC.Codeflix.Catalog.UnitTests/Domain/Entity/Category/CategoryTest.cs:121-145 | passes exactly when the length is at most the maximum; otherwise fails with TooLong carrying the field and the maximum |
| CategoryEntity.Validate | tests/FC.Codeflix.Catalog.UnitTests/Domain/Entity/Category/CategoryTest.cs:64-145 | passes exactly for a valid name and description; a null/blank name is Empty(Name) even when shorter than 3, then TooShort(Name, 3), TooLong(Name, 255), Empty(Description) for null/blank, TooLong(Description, 10000) |
| CategoryEntity.Create | tests/FC.Codeflix.Catalog.UnitTests/Domain/Entity/Category/CategoryTest.cs:20-62 | succeeds exactly for a valid name and description; stores id, creation time, name, description and the flag as given (the flag defaults to true); the result keeps the aggregate invariant; a failure carries the first violated rule |
| CategoryEntity.Update | tests/FC.Codeflix.Catalog.UnitTests/Domain/Entity/Category/CategoryTest.cs:170-256 | succeeds exactly when the new name and the effective description are valid; replaces the name, replaces the description only when one is given, keeps id, flag and creation time; a failure carries the first violated rule |
| CategoryEntity.Activate | tests/FC.Codeflix.Catalog.UnitTests/Domain/Entity/Category/CategoryTest.cs:147-157 | the flag becomes true and no other field changes |
| CategoryEntity.Deactivate | tests/FC.Codeflix.Catalog.UnitTests/Domain/Entity/Category/CategoryTest.cs:159-168 | the flag becomes false and no other field changes |
| CategoryEntity.UpdateIsReconstruction | tests/FC.Codeflix.Catalog.UnitTests/Domain/Entity/Category/CategoryTest.cs:198-256 | an update returns exactly what construction with the same id, time, flag and effective description returns, so it applies the same rules and errors |
| CategoryEntity.MutationsPreserveValidity | tests/FC.Codeflix.Catalog.UnitTests/Domain/Entity/Category/CategoryTest.cs:147-196 | Activate, Deactivate and a successful Update keep a valid category valid |
| CategoryEntity.ActivationIsIdempotent | tests/FC.Codeflix.Catalog.UnitTests/Domain/Entity/Category/CategoryTest.cs:147-168 | repeating Activate or Deactivate changes nothing, and the last switch wins |
| CategoryEntity.UpdateOnlyNameKeepsDescription | tests/FC.Codeflix.Catalog.UnitTests/Domain/Entity/Category/CategoryTest.cs:184-196 | Update with a name only replaces the name and keeps the description; an invalid name fails |
| Ordering.SortBy | tests/FC.Codeflix.Catalog.IntegrationTests/Infra.Data.EF/Repositories/CategoryRepository/CategoryRepositoryTestFixture.cs:60-66 | LINQ `OrderBy` / `OrderByDescending` on one key: the result is a permutation of the input (same elements, same multiplicities) |
| Ordering.SortBySorted | tests/FC.Codeflix.Catalog.IntegrationTests/Infra.Data.EF/Repositories/CategoryRepository/CategoryRepositoryTestFixture.cs:60-66 | the ordered list is ordered by the chosen key in the chosen direction |
| Ordering.SortByStable | tests/FC.Codeflix.Catalog.IntegrationTests/Infra.Data.EF/Repositories/CategoryRepository/CategoryRepositoryTestFixture.cs:60-68 | within each group of equal keys the ordered list keeps the input's order, as LINQ's stable ordering does |
| Ordering.InsertStable | tests/FC.Codeflix.Catalog.IntegrationTests/Infra.Data.EF/Repositories/CategoryRepository/CategoryRepositoryTestFixture.cs:60-66 | inserting into a list puts the element ahead of its equal-key group and leaves other groups unchanged |
| Ordering.SameKeyIffMutualOrder | tests/FC.Codeflix.Catalog.IntegrationTests/Infra.Data.EF/Repositories/CategoryRepository/CategoryRepositoryTestFixture.cs:60-63 | two categories tie in the ordering (each may precede the other) exactly when their keys are equal, names compared ordinally |
| Repository.Get | tests/FC.Codeflix.Catalog.UnitTests/Application/Category/GetCategory/GetCategoryTest.cs:48-65 | finds exactly the stored ids; returns the stored category with that id; an absent id fails with NotFound carrying it |
| Repository.NoCommitNoEffect | tests/FC.Codeflix.Catalog.UnitTests/Application/Category/DeleteCategory/DeleteCategoryTest.cs:58-93 | a trace without a commit leaves the committed state as it was, whatever writes are pending |
| Repository.Committed | tests/FC.Codeflix.Catalog.UnitTests/Application/Category/DeleteCategory/DeleteCategoryTest.cs:52-93 | the durable state after a trace, with writes held until a commit; a trace without a commit leaves the state it started from |
| Repository.WriteThenCommit | tests/FC.Codeflix.Catalog.IntegrationTests/Application/UseCases/Category/DeleteCategory/DeleteCategoryTest.cs:42-47 | lookups, one write and a commit make exactly that write durable |
| CategoryUseCases.FromCategory | tests/FC.Codeflix.Catalog.UnitTests/Application/Category/GetCategory/GetCategoryTest.cs:40-45 | `CategoryModelOutput.FromCategory` loses nothing: id, name, description, flag and creation time all survive, since the category read back from the output is the original |
| CategoryUseCases.GetCategory | tests/FC.Codeflix.Catalog.UnitTests/Application/Category/GetCategory/GetCategoryTest.cs:21-70 | succeeds exactly for a stored id and then describes the stored category; otherwise NotFound(id); exactly one Get(id) either way; the store does not change and equals the replay of the trace |
| CategoryUseCases.CreateCategory | tests/FC.Codeflix.Catalog.UnitTests/Application/CreateCategory/CreateCategoryTest.cs:12-38 | succeeds exactly for valid fields; the output echoes name, description and flag with the drawn id and time, so its id is not `Guid.Empty` and its creation time not the default date; the trace is exactly one Create, of that category, then one Commit; the store gains exactly it; invalid fields give the aggregate's error and no call at all |
| CategoryUseCases.UpdateCategory | tests/FC.Codeflix.Catalog.UnitTests/Application/Category/UpdateCategory/UpdateCategoryTest.cs:25-249 | one Get(id) always; an unknown id gives NotFound(id); invalid fields give the aggregate's error; either failure leaves the store as it was with no Update and no Commit; success replaces name, description if given, flag if given, keeps id and creation time, makes one Update and one Commit, and stores exactly the result |
| CategoryUseCases.DeleteCategory | tests/FC.Codeflix.Catalog.UnitTests/Application/Category/DeleteCategory/DeleteCategoryTest.cs:22-93 | one Get(id) always; success deletes exactly the fetched entity once and commits once, the id is gone and every other record stays unchanged; an unknown id gives NotFound(id) with no commit and no change |
| CategoryUseCases.ToSearchInput | tests/FC.Codeflix.Catalog.UnitTests/Application/ListCategories/ListCategoriesTest.cs:22-43 | page, per-page and search are forwarded unchanged; sort becomes OrderBy and dir becomes Order |
| CategoryUseCases.ListCategories | tests/FC.Codeflix.Catalog.UnitTests/Application/ListCategories/ListCategoriesTest.cs:18-74 | exactly one Search with the forwarded request; page and per-page come from the search result; the count is the result's total, not the number of items; items map one to one with every field kept; the store does not change and equals the replay of the trace |
| CategoryUseCases.CreateThenGet | tests/FC.Codeflix.Catalog.UnitTests/Application/CreateCategory/CreateCategoryTest.cs:25-38 | after a successful create, Get of the new id returns the created category's fields |
| CategoryUseCases.UpdateThenGet | tests/FC.Codeflix.Catalog.IntegrationTests/Application/UseCases/Category/UpdateCategory/UpdateCategoryTest.cs:44-55 | after a successful update, reading the id back gives the updated fields and the unchanged creation time |
| CategoryUseCases.DeleteThenGet | tests/FC.Codeflix.Catalog.IntegrationTests/Application/UseCases/Category/DeleteCategory/DeleteCategoryTest.cs:42-72 | after a successful delete, Get and a second Delete of the id report NotFound(id) |
| CategoryRepositoryFixture.GetValidCategoryName | tests/FC.Codeflix.Catalog.IntegrationTests/Infra.Data.EF/Repositories/CategoryRepository/CategoryRepositoryTestFixture.cs:19-26 | yields a name exactly when some draw has at least 3 characters; the name is the first such draw cut to 255, so its length is between 3 and 255 |
| CategoryRepositoryFixture.GetValidCategoryDescription | tests/FC.Codeflix.Catalog.IntegrationTests/Infra.Data.EF/Repositories/CategoryRepository/CategoryRepositoryTestFixture.cs:28-34 | the description is the first min(length, 10000) characters of the draw: a prefix of exactly that length, and the whole draw when it already fits |
| CategoryRepositoryFixture.GetExampleCategoriesListWithNames | tests/FC.Codeflix.Catalog.IntegrationTests/Infra.Data.EF/Repositories/CategoryRepository/CategoryRepositoryTestFixture.cs:47-53 | succeeds exactly when every name is valid; then one category per name, the i-th renamed to names[i] and otherwise equal to the i-th example; otherwise the error of the first failing rename |
| CategoryRepositoryFixture.ToLower | tests/FC.Codeflix.Catalog.IntegrationTests/Infra.Data.EF/Repositories/CategoryRepository/CategoryRepositoryTestFixture.cs:58 | `string.ToLower`: same length, each character lowered, and no upper-case ASCII letter left in the result |
| CategoryRepositoryFixture.SelectOrdering | tests/FC.Codeflix.Catalog.IntegrationTests/Infra.Data.EF/Repositories/CategoryRepository/CategoryRepositoryTestFixture.cs:58-66 | the switch as written: "name" and "id" pick that field in the asked direction, "createdAt" picks creation time, any other key name ascending |
| CategoryRepositoryFixture.CloneCategoriesListOrdered | tests/FC.Codeflix.Catalog.IntegrationTests/Infra.Data.EF/Repositories/CategoryRepository/CategoryRepositoryTestFixture.cs:55-69 | the result is a permutation of the input, ordered as the switch arm for the lower-cased key and direction says |
| CategoryRepositoryFixture.CloneIsStable | tests/FC.Codeflix.Catalog.IntegrationTests/Infra.Data.EF/Repositories/CategoryRepository/CategoryRepositoryTestFixture.cs:55-68 | equal-key categories keep their input order in the copy |
| CategoryRepositoryFixture.NameAndIdKeysHonourDirection | tests/FC.Codeflix.Catalog.IntegrationTests/Infra.Data.EF/Repositories/CategoryRepository/CategoryRepositoryTestFixture.cs:60-63 | "name" and "id" in any letter case order by that field ascending or descending as asked |
| CategoryRepositoryFixture.LoweredKeyIsNeverCreatedAt | tests/FC.Codeflix.Catalog.IntegrationTests/Infra.Data.EF/Repositories/CategoryRepository/CategoryRepositoryTestFixture.cs:58-65 | no lower-cased key equals "createdAt", so its two arms never match |
| CategoryRepositoryFixture.OtherKeysFallBackToNameAscending | tests/FC.Codeflix.Catalog.IntegrationTests/Infra.Data.EF/Repositories/CategoryRepository/CategoryRepositoryTestFixture.cs:58-66 | every other key, "createdAt" included, gives name-ascending order whatever direction is asked |
| CategoryRepositoryFixture.KeyMatchingIgnoresCase | tests/FC.Codeflix.Catalog.IntegrationTests/Infra.Data.EF/Repositories/CategoryRepository/CategoryRepositoryTestFixture.cs:58 | keys equal after lower-casing give the same ordering |
| CategoryRepositoryFixture.UpperCaseNameMatches | tests/FC.Codeflix.Catalog.IntegrationTests/Infra.Data.EF/Repositories/CategoryRepository/CategoryRepositoryTestFixture.cs:58-60 | the key "NAME" orders exactly as "name" does |
| CategoryRepositoryFixture.MixedCaseIdMatches | tests/FC.Codeflix.Catalog.IntegrationTests/Infra.Data.EF/Repositories/CategoryRepository/CategoryRepositoryTestFixture.cs:58-62 | the key "Id" orders exactly as "id" does |
| CategoryRepositoryFixture.CreatedAtIsNotHonoured | tests/FC.Codeflix.Catalog.IntegrationTests/Infra.Data.EF/Repositories/CategoryRepository/CategoryRepositoryTestFixture.cs:64-66 | two categories with names and creation times in opposite orders come back by name for "createdAt" ascending, out of creation order |
| CategoryRepositoryFixture.SelectOrderingIntended | tests/FC.Codeflix.Catalog.IntegrationTests/Infra.Data.EF/Repositories/CategoryRepository/CategoryRepositoryTestFixture.cs:58-66 | the corrected switch picks creation time for "createdat" and agrees with the written switch elsewhere |
| CategoryRepositoryFixture.CloneCategoriesListOrderedIntended | tests/FC.Codeflix.Catalog.IntegrationTests/Infra.Data.EF/Repositories/CategoryRepository/CategoryRepositoryTestFixture.cs:55-69 | the corrected ordering is a permutation ordered as the corrected switch says |
| CategoryRepositoryFixture.IntendedOrdersByCreatedAt | tests/FC.Codeflix.Catalog.IntegrationTests/Infra.Data.EF/Repositories/CategoryRepository/CategoryRepositoryTestFixture.cs:64-65 | with the correction, "createdAt" in any letter case orders by creation time in the asked direction, and every other key orders as before |
| CreateCategoryApiTestData.GetInvalidInputs | tests/FC.Codeflix.Catalog.EndToEndTests/FC.Codeflix.Catalog.EndToEndTest/Api/Category/CreateCategory/CreateCategoryApiTestDataGenerator.cs:7-59 | four entries in order, each the example request with one field replaced and each failing validation with its expected error: a too-short name gives TooShort(Name, 3), a too-long name TooLong(Name, 255), a null (None) description Empty(Description) rather than a Null error, a too-long description TooLong(Description, 10000) |
| CreateCategoryApiTestData.InvalidInputsAreRejected | tests/FC.Codeflix.Catalog.EndToEndTests/FC.Codeflix.Catalog.EndToEndTest/Api/Category/CreateCategory/CreateCategoryApiTestDataGenerator.cs:17-52 | each entry makes the create use case fail with the expected error and leaves the store unchanged |

## Left out

- Persistence plumbing: the EF Core context, `SaveChanges`, entity tracking and detaching are replaced by the map store and the commit in the trace.
- Async handlers, cancellation tokens, MediatR requests and Moq are not modelled; mock verifications are trace counts.
- Faker, `Random`, `Guid.NewGuid` and `DateTime.Now` are parameters. The short-name generator of the aggregate tests always cuts to one character, which changes nothing modelled.
- HTTP and end-to-end plumbing (the API test, its fixtures and the end-to-end persistence helper) is left out.
- The repository's Search implementation is not part of this model: paging, filtering and total counting are not specified, and ListCategories takes the search as a parameter.
- Culture-sensitive string comparison and Guid ordering: names compare by ordinal order and ids as integers.
- Lengths count Dafny characters (Unicode scalar values); .NET counts UTF-16 code units, which differ for characters outside the Basic Multilingual Plane.
- The older duplicate update test, the per-use-case fixtures that repeat the repository fixture's generators, `GetExampleCategoriesList` and the one-field delete request DTO are not modelled separately.
- Two test files do not compile (the list and create use-case tests); only what they assert is modelled.
- CategoryUseCases.CreateCategory: requires the drawn id to be absent from the store and not `Guid.Empty`, and the clock reading not to be the default date, as `Guid.NewGuid` and `DateTime.Now` guarantee; an id collision, which would fail at commit, is not modelled.
- CategoryEntity.Create: the identity and creation time are parameters, so the non-empty Id and non-default CreatedAt the aggregate tests assert are the caller's obligation (CreateCategory requires them) rather than something Create ensures.
- CategoryRepositoryFixture.GetValidCategoryName: when the draws run out before one is long enough the result is None; the fixture would keep drawing.
- CreateCategoryApiTestData.GetInvalidInputs: one example request and one draw of each spoiled string serve all four entries, where the generator draws afresh per entry. The spoiled strings are any non-blank strings on the wrong side of their bound; the generator draws exactly 2, 256 and 10001 characters.
- CategoryRepositoryFixture.ToLower: lowers only ASCII letters; .NET lowers every letter by culture rules.

## Findings

| source | as written | input that shows it | evidently intended | confidence | as-written member | corrected member |
|---|---|---|---|---|---|---|
| tests/FC.Codeflix.Catalog.IntegrationTests/Infra.Data.EF/Repositories/CategoryRepository/CategoryRepositoryTestFixture.cs:58-66 | the key is lower-cased before the switch, so the arms for "createdAt" (with a capital A) can never match and the key falls through to name ascending | categories ("beta", created 1) and ("alpha", created 2) with key "createdAt" and direction Asc come back alpha first, out of creation order | "createdAt" in any case orders by creation time in the asked direction | medium, not executed | CategoryRepositoryFixture.CreatedAtIsNotHonoured | CategoryRepositoryFixture.IntendedOrdersByCreatedAt |

=== FILE: category.dfy ===
/**
 * The Category aggregate: an identity-bearing catalog entry whose name and
 * description are validated on construction and on every update. The aggregate
 * is immutable here: construction and update return a new value or an error.
 * The identifier and the creation time, which the system draws from
 * `Guid.NewGuid` and `DateTime.Now`, are parameters.
 */
module CategoryEntity {
  import opened Wrappers
  import opened Exceptions
  import opened DomainValidation

  /** A Guid, modelled as an integer. */
  type Id = int
  /** A DateTime, modelled as an integer tick count. */
  type Timestamp = int

  /** `Guid.Empty` */
  const EmptyId: Id := 0
  /** `default(DateTime)` */
  const DefaultTimestamp: Timestamp := 0

  const NameField := "Name"
  const DescriptionField := "Description"
  const NameMinLength := 3
  const NameMaxLength := 255
  const DescriptionMaxLength := 10000

  datatype Category = Category(
    id: Id,
    name: string,
    description: string,
    isActive: bool,
    createdAt: Timestamp
  )

  /** A name the aggregate accepts: present, not blank, 3 to 255 characters. */
  predicate ValidName(name: NullableString) {
    name.Some? && !IsBlank(name.value) && NameMinLength <= |name.value| <= NameMaxLength
  }

  /** A description the aggregate accepts: present, not blank, at most 10000 characters. */
  predicate ValidDescription(description: NullableString) {
    description.Some? && !IsBlank(description.value) && |description.value| <= DescriptionMaxLength
  }

  /** The invariant every Category value keeps. */
  predicate ValidCategory(c: Category) {
    ValidName(Some(c.name)) && ValidDescription(Some(c.description))
  }

  /**
   * The aggregate's validation: the checks run in a fixed order and the first
   * failing one decides the error. A blank name is reported as empty even when
   * it is also shorter than three characters.
   */
  function Validate(name: NullableString, description: NullableString): (r: Outcome<Error>)
    ensures r.Pass? <==> ValidName(name) && ValidDescription(description)
    ensures IsNullOrWhiteSpace(name) ==> r == Fail(Empty(NameField))
    ensures !IsNullOrWhiteSpace(name) && |name.value| < NameMinLength
            ==> r == Fail(TooShort(NameField, NameMinLength))
    ensures !IsNullOrWhiteSpace(name) && |name.value| > NameMaxLength
            ==> r == Fail(TooLong(NameField, NameMaxLength))
    ensures ValidName(name) && IsNullOrWhiteSpace(description)
            ==> r == Fail(Empty(DescriptionField))
    ensures ValidName(name) && !IsNullOrWhiteSpace(description) && |description.value| > DescriptionMaxLength
            ==> r == Fail(TooLong(DescriptionField, DescriptionMaxLength))
  {
    var nameFilled := NotNullOrEmpty(name, NameField);
    if nameFilled.Fail? then nameFilled
    else
      var nameLongEnough := MinLength(name.value, NameMinLength, NameField);
      if nameLongEnough.Fail? then nameLongEnough
      else
        var nameShortEnough := MaxLength(name.value, NameMaxLength, NameField);
        if nameShortEnough.Fail? then nameShortEnough
        else
          var descriptionFilled := NotNullOrEmpty(description, DescriptionField);
          if descriptionFilled.Fail? then descriptionFilled
          else MaxLength(description.value, DescriptionMaxLength, DescriptionField)
  }

  /** The constructor `new Category(name, description, isActive = true)`. */
  function Create(
    id: Id, createdAt: Timestamp, name: NullableString, description: NullableString, isActive: bool := true
  ): (r: Result<Category, Error>)
    ensures r.Success? <==> ValidName(name) && ValidDescription(description)
    ensures r.Success? ==>
      && r.value.id == id
      && r.value.createdAt == createdAt
      && r.value.name == name.value
      && r.value.description == description.value
      && r.value.isActive == isActive
    ensures r.Success? ==> ValidCategory(r.value)
    ensures r.Failure? ==> Validate(name, description) == Fail(r.error)
  {
    var verdict := Validate(name, description);
    if verdict.Fail? then Failure(verdict.error)
    else Success(Category(id, name.value, description.value, isActive, createdAt))
  }

  /** The description an update leaves in place: the new one if given, else the current one. */
  function EffectiveDescription(c: Category, description: Option<string>): string {
    if description.Some? then description.value else c.description
  }

  /**
   * `Update(name, description = null)`: replaces the name and, when one is
   * given, the description, after re-running the construction checks. On
   * failure no updated value exists, so the caller keeps the original.
   */
  function Update(c: Category, name: NullableString, description: Option<string> := None): (r: Result<Category, Error>)
    ensures r.Success? <==> ValidName(name) && ValidDescription(Some(EffectiveDescription(c, description)))
    ensures r.Success? ==>
      && r.value.name == name.value
      && r.value.description == (if description.Some? then description.value else c.description)
      && r.value.id == c.id
      && r.value.isActive == c.isActive
      && r.value.createdAt == c.createdAt
    ensures r.Failure? ==> Validate(name, Some(EffectiveDescription(c, description))) == Fail(r.error)
  {
    var newDescription := EffectiveDescription(c, description);
    var verdict := Validate(name, Some(newDescription));
    if verdict.Fail? then Failure(verdict.error)
    else Success(c.(name := name.value, description := newDescription))
  }

  /** Sets the active flag and changes nothing else. */
  function Activate(c: Category): (r: Category)
    ensures r.isActive
    ensures r.id == c.id && r.name == c.name && r.description == c.description && r.createdAt == c.createdAt
  {
    c.(isActive := true)
  }

  /** Clears the active flag and changes nothing else. */
  function Deactivate(c: Category): (r: Category)
    ensures !r.isActive
    ensures r.id == c.id && r.name == c.name && r.description == c.description && r.createdAt == c.createdAt
  {
    c.(isActive := false)
  }

  /** An update gives exactly the category a construction with the same identity, creation time and flag would give. */
  lemma UpdateIsReconstruction(c: Category, name: NullableString, description: Option<string>)
    ensures Update(c, name, description)
         == Create(c.id, c.createdAt, name, Some(EffectiveDescription(c, description)), c.isActive)
  {
  }

  /** Update and the activation switches keep the aggregate's invariant. */
  lemma MutationsPreserveValidity(c: Category, name: NullableString, description: Option<string>)
    requires ValidCategory(c)
    ensures ValidCategory(Activate(c)) && ValidCategory(Deactivate(c))
    ensures Update(c, name, description).Success? ==> ValidCategory(Update(c, name, description).value)
  {
  }

  /** Activate and Deactivate are idempotent, and each undoes the other up to the flag. */
  lemma ActivationIsIdempotent(c: Category)
    ensures Activate(Activate(c)) == Activate(c)
    ensures Deactivate(Deactivate(c)) == Deactivate(c)
    ensures Activate(Deactivate(c)) == Activate(c)
    ensures Deactivate(Activate(c)) == Deactivate(c)
  {
  }

  /** Updating only the name keeps the stored description, whatever it is. */
  lemma UpdateOnlyNameKeepsDescription(c: Category, name: string)
    requires ValidCategory(c)
    ensures ValidName(Some(name)) ==> Update(c, Some(name)) == Success(c.(name := name))
    ensures !ValidName(Some(name)) ==> Update(c, Some(name)).Failure?
  {
  }
}

=== FILE: domain_validation.dfy ===
/**
 * The stateless field validators of the domain (DomainValidation). Each check
 * either passes or fails with an error naming the checked field.
 */
module DomainValidation {
  import opened Wrappers
  import opened Exceptions

  /** A C# `string?`: `None` is `null`. */
  type NullableString = Option<string>

  /** The characters for which .NET's `char.IsWhiteSpace` holds. */
  predicate IsWhiteSpace(c: char): (r: bool)
    ensures c as int < 0x80 ==> (r <==> c as int == 0x20 || 0x09 <= c as int <= 0x0D)
    ensures r ==> c as int <= 0x3000 && c as int != 0x200B && c as int != 0xFEFF
  {
    || ('\t' <= c <= '\r')
    || c == ' '
    || c == '\U{0085}'
    || c == '\U{00A0}'
    || c == '\U{1680}'
    || ('\U{2000}' <= c <= '\U{200A}')
    || c == '\U{2028}'
    || c == '\U{2029}'
    || c == '\U{202F}'
    || c == '\U{205F}'
    || c == '\U{3000}'
  }

  /** Scans `s` for a character that is not white space; the empty string is blank. */
  function IsBlank(s: string): (r: bool)
    ensures r <==> forall i | 0 <= i < |s| :: IsWhiteSpace(s[i])
  {
    if |s| == 0 then true else IsWhiteSpace(s[0]) && IsBlank(s[1..])
  }

  /** .NET's `string.IsNullOrWhiteSpace`. */
  predicate IsNullOrWhiteSpace(value: NullableString): (r: bool)
    ensures r <==> value.None? || forall i | 0 <= i < |value.value| :: IsWhiteSpace(value.value[i])
  {
    value.None? || IsBlank(value.value)
  }

  /** Rejects an absent value. */
  function NotNull<T>(value: Option<T>, fieldName: string): (r: Outcome<Error>)
    ensures r.Pass? <==> value.Some?
    ensures r.Fail? ==> r.error == Null(fieldName)
  {
    if value.None? then Fail(Null(fieldName)) else Pass
  }

  /** Rejects `null`, `""` and any string made only of white space. */
  function NotNullOrEmpty(value: NullableString, fieldName: string): (r: Outcome<Error>)
    ensures r.Pass? <==> value.Some? && exists i | 0 <= i < |value.value| :: !IsWhiteSpace(value.value[i])
    ensures r.Fail? ==> r.error == Empty(fieldName)
  {
    if IsNullOrWhiteSpace(value) then Fail(Empty(fieldName)) else Pass
  }

  /** Rejects a string shorter than `minLength`. */
  function MinLength(value: string, minLength: int, fieldName: string): (r: Outcome<Error>)
    ensures r.Pass? <==> minLength <= |value|
    ensures r.Fail? ==> r.error == TooShort(fieldName, minLength)
  {
    if |value| < minLength then Fail(TooShort(fieldName, minLength)) else Pass
  }

  /** Rejects a string longer than `maxLength`. */
  function MaxLength(value: string, maxLength: int, fieldName: string): (r: Outcome<Error>)
    ensures r.Pass? <==> |value| <= maxLength
    ensures r.Fail? ==> r.error == TooLong(fieldName, maxLength)
  {
    if |value| > maxLength then Fail(TooLong(fieldName, maxLength)) else Pass
  }
}

=== FILE: exceptions.dfy ===
/**
 * The error kinds of the catalog. The message texts differ from one file of
 * the system to another, so an error is identified by its kind and its
 * arguments rather than by its text.
 */
module Exceptions {

  datatype Error =
    /** `{field} should not be null` */
    | Null(field: string)
    /** `{field} should not be empty or null` (also raised for an all-white-space value) */
    | Empty(field: string)
    /** `{field} should be at least {min} characters long` */
    | TooShort(field: string, min: int)
    /** `{field} should be less or equal {max} characters long` */
    | TooLong(field: string, max: int)
    /** `Category '{id}' not found.` */
    | NotFound(id: int)
}

=== FILE: invalid_inputs.dfy ===
/**
 * The table of invalid create requests used by the create-category API
 * tests: each entry pairs a request with the one error it must produce.
 */
module CreateCategoryApiTestData {
  import opened Wrappers
  import opened Exceptions
  import opened DomainValidation
  import opened CategoryEntity
  import opened CategoryUseCases

  datatype InvalidCase = InvalidCase(input: CreateCategoryInput, expected: Error)

  /** The error the table expects for its entry number `index % 4`. */
  function ExpectedError(index: nat): Error {
    match index % 4
    case 0 => TooShort(NameField, NameMinLength)
    case 1 => TooLong(NameField, NameMaxLength)
    case 2 => Empty(DescriptionField)
    case _ => TooLong(DescriptionField, DescriptionMaxLength)
  }

  /** Some character of `s` is not white space, so `s` is not blank. */
  predicate HasVisibleChar(s: string) {
    exists k | 0 <= k < |s| :: !IsWhiteSpace(s[k])
  }

  /**
   * `GetInvalidInputs`: four copies of a valid request, each spoiled in one
   * field (a two-character name, a 256-character name, a null description, a
   * 10001-character description). The drawn strings are parameters, required
   * only to be on the wrong side of the bound they break.
   */
  method GetInvalidInputs(
    example: CreateCategoryInput, shortName: string, tooLongName: string, tooLongDescription: string
  ) returns (cases: seq<InvalidCase>)
    requires ValidName(example.name) && ValidDescription(example.description)
    requires |shortName| < NameMinLength && HasVisibleChar(shortName)
    requires |tooLongName| > NameMaxLength && HasVisibleChar(tooLongName)
    requires |tooLongDescription| > DescriptionMaxLength && HasVisibleChar(tooLongDescription)
    ensures |cases| == 4
    ensures forall i | 0 <= i < |cases| :: cases[i].expected == ExpectedError(i)
    ensures forall i | 0 <= i < |cases| ::
      Validate(cases[i].input.name, cases[i].input.description) == Fail(cases[i].expected)
    ensures cases[0].input == example.(name := Some(shortName))
    ensures cases[1].input == example.(name := Some(tooLongName))
    ensures cases[2].input == example.(description := None)
    ensures cases[3].input == example.(description := Some(tooLongDescription))
  {
    var totalInvalidCases := 4;
    cases := [];
    var index := 0;
    while index < totalInvalidCases
      invariant 0 <= index <= totalInvalidCases
      invariant |cases| == index
      invariant forall i | 0 <= i < index :: cases[i].expected == ExpectedError(i)
      invariant forall i | 0 <= i < index ::
        Validate(cases[i].input.name, cases[i].input.description) == Fail(cases[i].expected)
      invariant index > 0 ==> cases[0].input == example.(name := Some(shortName))
      invariant index > 1 ==> cases[1].input == example.(name := Some(tooLongName))
      invariant index > 2 ==> cases[2].input == example.(description := None)
      invariant index > 3 ==> cases[3].input == example.(description := Some(tooLongDescription))
    {
      var entry;
      if index % totalInvalidCases == 0 {
        entry := InvalidCase(example.(name := Some(shortName)), TooShort(NameField, NameMinLength));
      } else if index % totalInvalidCases == 1 {
        entry := InvalidCase(example.(name := Some(tooLongName)), TooLong(NameField, NameMaxLength));
      } else if index % totalInvalidCases == 2 {
        entry := InvalidCase(example.(description := None), Empty(DescriptionField));
      } else {
        entry := InvalidCase(example.(description := Some(tooLongDescription)), TooLong(DescriptionField, DescriptionMaxLength));
      }
      assert Validate(entry.input.name, entry.input.description) == Fail(entry.expected);
      cases := cases + [entry];
      index := index + 1;
    }
  }

  /** Every entry of the table makes the create use case fail with its expected error and write nothing. */
  lemma InvalidInputsAreRejected(
    store: Repository.Store, newId: Id, now: Timestamp, entry: InvalidCase)
    requires newId !in store && newId != EmptyId && now != DefaultTimestamp
    requires Validate(entry.input.name, entry.input.description) == Fail(entry.expected)
    ensures CreateCategory(store, newId, now, entry.input).result == Failure(entry.expected)
    ensures CreateCategory(store, newId, now, entry.input).store == store
  {
  }
}

=== FILE: ordering.dfy ===
/**
 * Ordering of category lists as LINQ's `OrderBy` / `OrderByDescending` do it:
 * a stable sort on one key, ascending or descending. Names compare by ordinal
 * (character code) lexicographic order.
 */
module Ordering {
  import opened CategoryEntity
  import opened SearchableRepository

  /** Ordinal lexicographic `a <= b` on strings. */
  predicate StrLe(a: string, b: string)
    decreases |a|
  {
    |a| == 0 || (|b| > 0 && (a[0] < b[0] || (a[0] == b[0] && StrLe(a[1..], b[1..]))))
  }

  lemma {:induction false} StrLeReflexive(a: string)
    ensures StrLe(a, a)
    decreases |a|
  {
    if |a| > 0 {
      StrLeReflexive(a[1..]);
    }
  }

  lemma {:induction false} StrLeTotal(a: string, b: string)
    ensures StrLe(a, b) || StrLe(b, a)
    decreases |a|
  {
    if |a| > 0 && |b| > 0 && a[0] == b[0] {
      StrLeTotal(a[1..], b[1..]);
    }
  }

  lemma {:induction false} StrLeTransitive(a: string, b: string, c: string)
    requires StrLe(a, b) && StrLe(b, c)
    ensures StrLe(a, c)
    decreases |a|
  {
    if |a| > 0 && a[0] == b[0] && b[0] == c[0] {
      StrLeTransitive(a[1..], b[1..], c[1..]);
    }
  }

  lemma {:induction false} StrLeAntisymmetric(a: string, b: string)
    requires StrLe(a, b) && StrLe(b, a)
    ensures a == b
    decreases |a|
  {
    if |a| > 0 {
      StrLeAntisymmetric(a[1..], b[1..]);
      assert a == [a[0]] + a[1..];
      assert b == [b[0]] + b[1..];
    }
  }

  /** The property a list is ordered by. */
  datatype SortKey = NameKey | IdKey | CreatedAtKey

  /** `a`'s key is at most `b`'s key. */
  predicate KeyLe(key: SortKey, a: Category, b: Category) {
    match key
    case NameKey => StrLe(a.name, b.name)
    case IdKey => a.id <= b.id
    case CreatedAtKey => a.createdAt <= b.createdAt
  }

  /** `a` and `b` have equal keys. */
  predicate SameKey(key: SortKey, a: Category, b: Category) {
    match key
    case NameKey => a.name == b.name
    case IdKey => a.id == b.id
    case CreatedAtKey => a.createdAt == b.createdAt
  }

  /** `a` may precede `b` in a list ordered by `key` in direction `order`. */
  predicate InOrder(key: SortKey, order: SearchOrder, a: Category, b: Category) {
    if order == Asc then KeyLe(key, a, b) else KeyLe(key, b, a)
  }

  lemma InOrderTotal(key: SortKey, order: SearchOrder, a: Category, b: Category)
    ensures InOrder(key, order, a, b) || InOrder(key, order, b, a)
  {
    if key == NameKey {
      StrLeTotal(a.name, b.name);
    }
  }

  lemma InOrderTransitive(key: SortKey, order: SearchOrder, a: Category, b: Category, c: Category)
    requires InOrder(key, order, a, b) && InOrder(key, order, b, c)
    ensures InOrder(key, order, a, c)
  {
    if key == NameKey {
      if order == Asc {
        StrLeTransitive(a.name, b.name, c.name);
      } else {
        StrLeTransitive(c.name, b.name, a.name);
      }
    }
  }

  lemma SameKeyInOrder(key: SortKey, order: SearchOrder, a: Category, b: Category)
    requires SameKey(key, a, b)
    ensures InOrder(key, order, a, b) && InOrder(key, order, b, a)
  {
    if key == NameKey {
      StrLeReflexive(a.name);
    }
  }

  /**
   * Equal keys are exactly the keys that may precede each other, so the
   * order ties two categories only when their keys are equal.
   */
  lemma SameKeyIffMutualOrder(key: SortKey, order: SearchOrder, a: Category, b: Category)
    ensures SameKey(key, a, b) <==> InOrder(key, order, a, b) && InOrder(key, order, b, a)
  {
    if SameKey(key, a, b) {
      SameKeyInOrder(key, order, a, b);
    } else if key == NameKey && StrLe(a.name, b.name) && StrLe(b.name, a.name) {
      StrLeAntisymmetric(a.name, b.name);
    }
  }

  /** Every earlier element may precede every later one. */
  ghost predicate Sorted(key: SortKey, order: SearchOrder, xs: seq<Category>) {
    forall i, j | 0 <= i < j < |xs| :: InOrder(key, order, xs[i], xs[j])
  }

  /** The elements of `xs` whose key equals `x`'s, in their order in `xs`. */
  function SameKeyAs(key: SortKey, x: Category, xs: seq<Category>): (r: seq<Category>)
    ensures |r| <= |xs|
  {
    if |xs| == 0 then []
    else (if SameKey(key, xs[0], x) then [xs[0]] else []) + SameKeyAs(key, x, xs[1..])
  }

  /** Places `x` before the first element it may precede. */
  function Insert(key: SortKey, order: SearchOrder, x: Category, xs: seq<Category>): (r: seq<Category>)
    ensures multiset(r) == multiset(xs) + multiset{x}
    ensures |r| == |xs| + 1
  {
    if |xs| == 0 then [x]
    else if InOrder(key, order, x, xs[0]) then [x] + xs
    else
      assert xs == [xs[0]] + xs[1..];
      [xs[0]] + Insert(key, order, x, xs[1..])
  }

  /**
   * A stable insertion sort: `OrderBy(key)` when `order` is Asc and
   * `OrderByDescending(key)` when it is Desc.
   */
  function SortBy(key: SortKey, order: SearchOrder, xs: seq<Category>): (r: seq<Category>)
    ensures multiset(r) == multiset(xs)
    ensures |r| == |xs|
  {
    if |xs| == 0 then []
    else
      assert xs == [xs[0]] + xs[1..];
      Insert(key, order, xs[0], SortBy(key, order, xs[1..]))
  }

  /** `y` may precede every element of `xs`. */
  ghost predicate Precedes(key: SortKey, order: SearchOrder, y: Category, xs: seq<Category>) {
    forall j | 0 <= j < |xs| :: InOrder(key, order, y, xs[j])
  }

  lemma SortedCons(key: SortKey, order: SearchOrder, y: Category, ys: seq<Category>)
    requires Precedes(key, order, y, ys) && Sorted(key, order, ys)
    ensures Sorted(key, order, [y] + ys)
  {
    var r := [y] + ys;
    forall i, j | 0 <= i < j < |r|
      ensures InOrder(key, order, r[i], r[j])
    {
      assert r[j] == ys[j - 1];
      if i > 0 {
        assert r[i] == ys[i - 1];
      }
    }
  }

  lemma SortedTail(key: SortKey, order: SearchOrder, ys: seq<Category>)
    requires |ys| > 0 && Sorted(key, order, ys)
    ensures Precedes(key, order, ys[0], ys[1..]) && Sorted(key, order, ys[1..])
  {
    forall i, j | 0 <= i < j < |ys[1..]|
      ensures InOrder(key, order, ys[1..][i], ys[1..][j])
    {
      assert ys[1..][i] == ys[i + 1] && ys[1..][j] == ys[j + 1];
    }
    forall j | 0 <= j < |ys[1..]|
      ensures InOrder(key, order, ys[0], ys[1..][j])
    {
      assert ys[1..][j] == ys[j + 1];
    }
  }

  /** Inserting an element that `y` may precede keeps `y` ahead of the whole list. */
  lemma {:induction false} InsertKeepsPrecedes(key: SortKey, order: SearchOrder, y: Category, x: Category, xs: seq<Category>)
    requires InOrder(key, order, y, x) && Precedes(key, order, y, xs)
    ensures Precedes(key, order, y, Insert(key, order, x, xs))
    decreases |xs|
  {
    if |xs| > 0 && !InOrder(key, order, x, xs[0]) {
      assert Precedes(key, order, y, xs[1..]) by {
        forall j | 0 <= j < |xs[1..]|
          ensures InOrder(key, order, y, xs[1..][j])
        {
          assert xs[1..][j] == xs[j + 1];
        }
      }
      InsertKeepsPrecedes(key, order, y, x, xs[1..]);
    }
  }

  lemma {:induction false} InsertSorted(key: SortKey, order: SearchOrder, x: Category, xs: seq<Category>)
    requires Sorted(key, order, xs)
    ensures Sorted(key, order, Insert(key, order, x, xs))
    decreases |xs|
  {
    if |xs| == 0 {
    } else if InOrder(key, order, x, xs[0]) {
      forall j | 0 <= j < |xs|
        ensures InOrder(key, order, x, xs[j])
      {
        if j > 0 {
          InOrderTransitive(key, order, x, xs[0], xs[j]);
        }
      }
      SortedCons(key, order, x, xs);
    } else {
      InOrderTotal(key, order, x, xs[0]);
      SortedTail(key, order, xs);
      InsertSorted(key, order, x, xs[1..]);
      InsertKeepsPrecedes(key, order, xs[0], x, xs[1..]);
      SortedCons(key, order, xs[0], Insert(key, order, x, xs[1..]));
    }
  }

  /** The sorted list is ordered by the key in the requested direction. */
  lemma {:induction false} SortBySorted(key: SortKey, order: SearchOrder, xs: seq<Category>)
    ensures Sorted(key, order, SortBy(key, order, xs))
    decreases |xs|
  {
    if |xs| > 0 {
      SortBySorted(key, order, xs[1..]);
      InsertSorted(key, order, xs[0], SortBy(key, order, xs[1..]));
    }
  }

  lemma {:induction false} SameKeyAsAppend(key: SortKey, x: Category, a: seq<Category>, b: seq<Category>)
    ensures SameKeyAs(key, x, a + b) == SameKeyAs(key, x, a) + SameKeyAs(key, x, b)
    decreases |a|
  {
    if |a| == 0 {
      assert a + b == b;
    } else {
      assert (a + b)[0] == a[0];
      assert (a + b)[1..] == a[1..] + b;
      SameKeyAsAppend(key, x, a[1..], b);
    }
  }

  /**
   * Inserting `x` puts it ahead of every element with the same key, and
   * leaves the other key classes as they were.
   */
  lemma {:induction false} InsertStable(key: SortKey, order: SearchOrder, x: Category, xs: seq<Category>, y: Category)
    ensures SameKeyAs(key, y, Insert(key, order, x, xs)) == SameKeyAs(key, y, [x]) + SameKeyAs(key, y, xs)
    decreases |xs|, 1
  {
    if |xs| == 0 {
      assert Insert(key, order, x, xs) == [x];
      assert SameKeyAs(key, y, xs) == [];
    } else if InOrder(key, order, x, xs[0]) {
      assert Insert(key, order, x, xs) == [x] + xs;
      SameKeyAsAppend(key, y, [x], xs);
    } else {
      InsertStableSkip(key, order, x, xs, y);
    }
  }

  /** The case where `x` goes behind the head of the list. */
  lemma {:induction false} InsertStableSkip(key: SortKey, order: SearchOrder, x: Category, xs: seq<Category>, y: Category)
    requires |xs| > 0 && !InOrder(key, order, x, xs[0])
    ensures SameKeyAs(key, y, Insert(key, order, x, xs)) == SameKeyAs(key, y, [x]) + SameKeyAs(key, y, xs)
    decreases |xs|, 0
  {
    var head := [xs[0]];
    var tail := xs[1..];
    var rest := Insert(key, order, x, tail);
    InsertStable(key, order, x, tail, y);
    var px := SameKeyAs(key, y, [x]);
    var ph := SameKeyAs(key, y, head);
    var pt := SameKeyAs(key, y, tail);
    assert SameKeyAs(key, y, rest) == px + pt;
    assert Insert(key, order, x, xs) == head + rest;
    assert head + tail == xs;
    SameKeyAsAppend(key, y, head, rest);
    SameKeyAsAppend(key, y, head, tail);
    SameKeyAsSingle(key, y, x);
    SameKeyAsSingle(key, y, xs[0]);
    var none: seq<Category> := [];
    if SameKey(key, xs[0], y) {
      if SameKey(key, x, y) {
        // equal keys may precede each other, so x would have gone first
        SameKeyTransitiveInOrder(key, order, x, xs[0], y);
        assert false;
      }
      assert px == none;
      assert none + pt == pt && none + (ph + pt) == ph + pt;
    } else {
      assert ph == none;
      assert none + pt == pt && none + (px + pt) == px + pt;
    }
  }

  lemma SameKeyAsSingle(key: SortKey, y: Category, z: Category)
    ensures SameKeyAs(key, y, [z]) == if SameKey(key, z, y) then [z] else []
  {
    assert [z][1..] == [];
  }

  lemma SameKeyTransitiveInOrder(key: SortKey, order: SearchOrder, x: Category, z: Category, y: Category)
    requires SameKey(key, x, y) && SameKey(key, z, y)
    ensures InOrder(key, order, x, z)
  {
    assert SameKey(key, x, z);
    SameKeyInOrder(key, order, x, z);
  }

  /**
   * Stability: within each key class the sorted list keeps the elements in
   * their original order.
   */
  lemma {:induction false} SortByStable(key: SortKey, order: SearchOrder, xs: seq<Category>, y: Category)
    ensures SameKeyAs(key, y, SortBy(key, order, xs)) == SameKeyAs(key, y, xs)
    decreases |xs|
  {
    if |xs| > 0 {
      var rest := SortBy(key, order, xs[1..]);
      assert SortBy(key, order, xs) == Insert(key, order, xs[0], rest);
      SortByStable(key, order, xs[1..], y);
      InsertStable(key, order, xs[0], rest, y);
      assert xs == [xs[0]] + xs[1..];
      SameKeyAsAppend(key, y, [xs[0]], xs[1..]);
    }
  }
}

=== FILE: repository.dfy ===
/**
 * The category repository and its unit of work, over an in-memory store.
 * A use case talks to the repository through calls that are recorded in a
 * trace; writes are scheduled by Create / Update / Delete and become durable
 * only when the unit of work commits.
 */
module Repository {
  import opened Wrappers
  import opened Exceptions
  import opened CategoryEntity
  import opened SearchableRepository

  /** The committed categories, keyed by their identity (the table's primary key). */
  type Store = s: map<Id, Category> | forall k | k in s :: s[k].id == k
    witness map[]

  /** One call a use case makes on the repository or the unit of work. */
  datatype RepositoryCall =
    | GetCall(id: Id)
    | CreateCall(category: Category)
    | UpdateCall(category: Category)
    | DeleteCall(category: Category)
    | SearchCall(input: SearchInput)
    | CommitCall

  predicate IsWrite(call: RepositoryCall) {
    call.CreateCall? || call.UpdateCall? || call.DeleteCall?
  }

  /** How many times exactly `call` was made (Moq's `Times`). */
  function Count(trace: seq<RepositoryCall>, call: RepositoryCall): nat {
    multiset(trace)[call]
  }

  /** No call of the trace is a commit. */
  predicate NeverCommits(trace: seq<RepositoryCall>) {
    forall k | 0 <= k < |trace| :: !trace[k].CommitCall?
  }

  /** The repository's `Get(id)`: the stored category, or NotFound carrying the id. */
  function Get(store: Store, id: Id): (r: Result<Category, Error>)
    ensures r.Success? <==> id in store
    ensures r.Success? ==> r.value == store[id] && r.value.id == id
    ensures r.Failure? ==> r.error == NotFound(id)
  {
    if id in store then Success(store[id]) else Failure(NotFound(id))
  }

  /** Applies one scheduled write to the committed state; other calls do not write. */
  function ApplyWrite(store: Store, call: RepositoryCall): (r: Store)
    ensures call.CreateCall? || call.UpdateCall? ==> r == store[call.category.id := call.category]
    ensures call.DeleteCall? ==> r == store - {call.category.id}
    ensures !IsWrite(call) ==> r == store
  {
    match call
    case CreateCall(c) => store[c.id := c]
    case UpdateCall(c) => store[c.id := c]
    case DeleteCall(c) => store - {c.id}
    case _ => store
  }

  function ApplyWrites(store: Store, writes: seq<RepositoryCall>): Store
    decreases |writes|
  {
    if |writes| == 0 then store else ApplyWrites(ApplyWrite(store, writes[0]), writes[1..])
  }

  /**
   * Replays a trace against the committed state: writes wait in `pending`
   * until a commit applies them all at once.
   */
  function Replay(committed: Store, pending: seq<RepositoryCall>, trace: seq<RepositoryCall>): Store
    decreases |trace|
  {
    if |trace| == 0 then committed
    else if trace[0].CommitCall? then Replay(ApplyWrites(committed, pending), [], trace[1..])
    else if IsWrite(trace[0]) then Replay(committed, pending + [trace[0]], trace[1..])
    else Replay(committed, pending, trace[1..])
  }

  /** The durable state after a use case that started from `store` made the calls of `trace`. */
  function Committed(store: Store, trace: seq<RepositoryCall>): (r: Store)
    ensures NeverCommits(trace) ==> r == store
  {
    if NeverCommits(trace) then NoCommitNoEffect(store, [], trace); Replay(store, [], trace)
    else Replay(store, [], trace)
  }

  /** Writes never reach the committed state without a commit, whatever is pending. */
  lemma {:induction false} NoCommitNoEffect(committed: Store, pending: seq<RepositoryCall>, trace: seq<RepositoryCall>)
    requires NeverCommits(trace)
    ensures Replay(committed, pending, trace) == committed
    decreases |trace|
  {
    if |trace| > 0 {
      assert !trace[0].CommitCall?;
      var pending' := if IsWrite(trace[0]) then pending + [trace[0]] else pending;
      NoCommitNoEffect(committed, pending', trace[1..]);
    }
  }

  /** A single write followed by a commit applies exactly that write. */
  lemma WriteThenCommit(store: Store, lookups: seq<RepositoryCall>, write: RepositoryCall)
    requires IsWrite(write)
    requires forall k | 0 <= k < |lookups| :: !IsWrite(lookups[k]) && !lookups[k].CommitCall?
    ensures Committed(store, lookups + [write, CommitCall]) == ApplyWrite(store, write)
  {
    LookupsAreTransparent(store, [], lookups, [write, CommitCall]);
    var t := [write, CommitCall];
    assert t[1..] == [CommitCall];
    assert t[0] == write && [] + [write] == [write];
    assert Replay(store, [], t) == Replay(store, [write], [CommitCall]);
    assert [write][1..] == [];
    assert ApplyWrites(store, [write]) == ApplyWrite(store, write);
  }

  lemma {:induction false} LookupsAreTransparent(
    committed: Store, pending: seq<RepositoryCall>, lookups: seq<RepositoryCall>, rest: seq<RepositoryCall>)
    requires forall k | 0 <= k < |lookups| :: !IsWrite(lookups[k]) && !lookups[k].CommitCall?
    ensures Replay(committed, pending, lookups + rest) == Replay(committed, pending, rest)
    decreases |lookups|
  {
    if |lookups| == 0 {
      assert lookups + rest == rest;
    } else {
      assert (lookups + rest)[0] == lookups[0];
      assert (lookups + rest)[1..] == lookups[1..] + rest;
      LookupsAreTransparent(committed, pending, lookups[1..], rest);
    }
  }
}

=== FILE: repository_fixture.dfy ===
/**
 * The category repository test fixture: generators of valid names and
 * descriptions, the list-with-names builder, and the reference ordering
 * (`CloneCategoriesListOrdered`) the repository's search results are
 * compared against. Faker draws are parameters.
 */
module CategoryRepositoryFixture {
  import opened Wrappers
  import opened Exceptions
  import opened CategoryEntity
  import opened SearchableRepository
  import opened Ordering

  function Min(a: int, b: int): int {
    if a < b then a else b
  }

  /** `i` is the first draw that is at least three characters long. */
  predicate IsFirstLongEnough(draws: seq<string>, i: int) {
    && 0 <= i < |draws|
    && |draws[i]| >= NameMinLength
    && forall j | 0 <= j < i :: |draws[j]| < NameMinLength
  }

  /**
   * `GetValidCategoryName`: draws category names until one has at least three
   * characters, then cuts it to 255. `draws` is the sequence of names Faker
   * yields; when it runs out first the result is None (the fixture would keep
   * drawing).
   */
  method GetValidCategoryName(draws: seq<string>) returns (name: Option<string>)
    ensures name.Some? <==> exists i | 0 <= i < |draws| :: |draws[i]| >= NameMinLength
    ensures name.Some? ==> NameMinLength <= |name.value| <= NameMaxLength
    ensures name.Some? ==> exists i | IsFirstLongEnough(draws, i) ::
      name.value <= draws[i] && |name.value| == Min(|draws[i]|, NameMaxLength)
  {
    var categoryName := "";
    var k := 0;
    while |categoryName| < NameMinLength && k < |draws|
      invariant 0 <= k <= |draws|
      invariant k == 0 ==> categoryName == ""
      invariant k > 0 ==> categoryName == draws[k - 1]
      invariant forall j | 0 <= j < k - 1 :: |draws[j]| < NameMinLength
      decreases |draws| - k
    {
      categoryName := draws[k];
      k := k + 1;
    }
    if |categoryName| < NameMinLength {
      return None;
    }
    assert IsFirstLongEnough(draws, k - 1);
    if |categoryName| > NameMaxLength {
      categoryName := categoryName[..NameMaxLength];
    }
    return Some(categoryName);
  }

  /** `GetValidCategoryDescription`: cuts a drawn description to at most 10000 characters. */
  function GetValidCategoryDescription(drawn: string): (description: string)
    ensures |description| == Min(|drawn|, DescriptionMaxLength)
    ensures description <= drawn
    ensures |drawn| <= DescriptionMaxLength ==> description == drawn
  {
    if |drawn| > DescriptionMaxLength then drawn[..DescriptionMaxLength] else drawn
  }

  /** `r` renames the examples, one per name, in order. */
  ghost predicate RenamedInOrder(r: seq<Category>, names: seq<string>, examples: seq<Category>)
    requires |examples| == |names|
  {
    |r| == |names| && forall i | 0 <= i < |names| ::
      && r[i].name == names[i]
      && r[i].description == examples[i].description
      && r[i].id == examples[i].id
      && r[i].isActive == examples[i].isActive
      && r[i].createdAt == examples[i].createdAt
  }

  /** Renaming `examples[i]` to `names[i]` fails with `e`, and every earlier name is valid. */
  ghost predicate FirstFailureAt(names: seq<string>, examples: seq<Category>, i: int, e: Error)
    requires |examples| == |names|
  {
    && 0 <= i < |names|
    && (forall j | 0 <= j < i :: ValidName(Some(names[j])))
    && CategoryEntity.Update(examples[i], Some(names[i])) == Failure(e)
  }

  /**
   * `GetExampleCategoriesListWithNames`: one example category per name, each
   * renamed by `Update(name)`. `examples` are the randomly built categories.
   * The list is built in order, so the first invalid name decides the error.
   */
  function GetExampleCategoriesListWithNames(names: seq<string>, examples: seq<Category>): (r: Result<seq<Category>, Error>)
    requires |examples| == |names|
    requires forall i | 0 <= i < |examples| :: ValidCategory(examples[i])
    ensures r.Success? <==> forall i | 0 <= i < |names| :: ValidName(Some(names[i]))
    ensures r.Success? ==> RenamedInOrder(r.value, names, examples)
    ensures r.Failure? ==> exists i :: FirstFailureAt(names, examples, i, r.error)
    decreases |names|
  {
    if |names| == 0 then Success([])
    else
      var first := RenameHead(names, examples);
      if first.Failure? then
        assert FirstFailureAt(names, examples, 0, first.error);
        Failure(first.error)
      else
        var rest := GetExampleCategoriesListWithNames(names[1..], examples[1..]);
        if rest.Failure? then
          ghost var i :| FirstFailureAt(names[1..], examples[1..], i, rest.error);
          FirstFailureShifts(names, examples, i, rest.error);
          Failure(rest.error)
        else
          RenamedCons(first.value, rest.value, names, examples);
          ValidNamesCons(names);
          Success([first.value] + rest.value)
  }

  /** Renames the first example to the first name. */
  function RenameHead(names: seq<string>, examples: seq<Category>): (r: Result<Category, Error>)
    requires |examples| == |names| > 0
    requires ValidCategory(examples[0])
    ensures r.Success? <==> ValidName(Some(names[0]))
    ensures r.Success? ==>
      && r.value.name == names[0]
      && r.value.description == examples[0].description
      && r.value.id == examples[0].id
      && r.value.isActive == examples[0].isActive
      && r.value.createdAt == examples[0].createdAt
    ensures r == CategoryEntity.Update(examples[0], Some(names[0]))
  {
    assert EffectiveDescription(examples[0], None) == examples[0].description;
    CategoryEntity.Update(examples[0], Some(names[0]))
  }

  lemma FirstFailureShifts(names: seq<string>, examples: seq<Category>, i: int, e: Error)
    requires |examples| == |names| > 0
    requires ValidName(Some(names[0]))
    requires FirstFailureAt(names[1..], examples[1..], i, e)
    ensures FirstFailureAt(names, examples, i + 1, e)
  {
    forall j | 0 <= j < i + 1
      ensures ValidName(Some(names[j]))
    {
      if j > 0 {
        assert names[j] == names[1..][j - 1];
      }
    }
    assert names[i + 1] == names[1..][i] && examples[i + 1] == examples[1..][i];
  }

  lemma RenamedCons(first: Category, rest: seq<Category>, names: seq<string>, examples: seq<Category>)
    requires |examples| == |names| > 0
    requires first.name == names[0] && first.description == examples[0].description
    requires first.id == examples[0].id && first.isActive == examples[0].isActive
    requires first.createdAt == examples[0].createdAt
    requires RenamedInOrder(rest, names[1..], examples[1..])
    ensures RenamedInOrder([first] + rest, names, examples)
  {
    var r := [first] + rest;
    forall i | 0 <= i < |names|
      ensures r[i].name == names[i] && r[i].description == examples[i].description
      ensures r[i].id == examples[i].id && r[i].isActive == examples[i].isActive
      ensures r[i].createdAt == examples[i].createdAt
    {
      if i > 0 {
        assert r[i] == rest[i - 1] && names[i] == names[1..][i - 1] && examples[i] == examples[1..][i - 1];
      }
    }
  }

  lemma ValidNamesCons(names: seq<string>)
    requires |names| > 0 && ValidName(Some(names[0]))
    ensures (forall i | 0 <= i < |names| :: ValidName(Some(names[i])))
        <==> (forall i | 0 <= i < |names[1..]| :: ValidName(Some(names[1..][i])))
  {
    if forall i | 0 <= i < |names[1..]| :: ValidName(Some(names[1..][i])) {
      forall i | 0 <= i < |names|
        ensures ValidName(Some(names[i]))
      {
        if i > 0 {
          assert names[i] == names[1..][i - 1];
        }
      }
    }
  }

  /** ASCII lower-casing of one character. */
  function LowerChar(c: char): (r: char)
    ensures !('A' <= r <= 'Z')
    ensures 'a' <= c <= 'z' ==> r == c
  {
    if 'A' <= c <= 'Z' then (c as int + 32) as char else c
  }

  /** `string.ToLower`, restricted to ASCII letters. */
  function ToLower(s: string): (r: string)
    ensures |r| == |s|
    ensures forall i | 0 <= i < |s| :: r[i] == LowerChar(s[i])
    ensures forall i | 0 <= i < |r| :: !('A' <= r[i] <= 'Z')
  {
    seq(|s|, i requires 0 <= i < |s| => LowerChar(s[i]))
  }

  /** The ordering one arm of the fixture's switch selects. */
  datatype Arm = Arm(key: SortKey, order: SearchOrder)

  /** The switch over the lower-cased key and the direction, arm by arm as written. */
  function SelectOrdering(loweredKey: string, order: SearchOrder): (arm: Arm)
    ensures loweredKey == "name" ==> arm == Arm(NameKey, order)
    ensures loweredKey == "id" ==> arm == Arm(IdKey, order)
    ensures loweredKey == "createdAt" ==> arm == Arm(CreatedAtKey, order)
    ensures loweredKey != "name" && loweredKey != "id" && loweredKey != "createdAt" ==> arm == Arm(NameKey, Asc)
  {
    assert order == Asc || order == Desc;
    if loweredKey == "name" && order == Asc then Arm(NameKey, Asc)
    else if loweredKey == "name" && order == Desc then Arm(NameKey, Desc)
    else if loweredKey == "id" && order == Asc then Arm(IdKey, Asc)
    else if loweredKey == "id" && order == Desc then Arm(IdKey, Desc)
    else if loweredKey == "createdAt" && order == Asc then Arm(CreatedAtKey, Asc)
    else if loweredKey == "createdAt" && order == Desc then Arm(CreatedAtKey, Desc)
    else Arm(NameKey, Asc)
  }

  /**
   * `CloneCategoriesListOrdered`: a sorted copy of the list, ordered by the
   * field named by `orderBy` (matched after lower-casing) in direction `order`.
   */
  function CloneCategoriesListOrdered(categories: seq<Category>, orderBy: string, order: SearchOrder): (r: seq<Category>)
    ensures multiset(r) == multiset(categories) && |r| == |categories|
    ensures Sorted(SelectOrdering(ToLower(orderBy), order).key, SelectOrdering(ToLower(orderBy), order).order, r)
  {
    var arm := SelectOrdering(ToLower(orderBy), order);
    SortBySorted(arm.key, arm.order, categories);
    SortBy(arm.key, arm.order, categories)
  }

  /** The copy keeps equal-key categories in their original relative order, as LINQ's stable sort does. */
  lemma CloneIsStable(categories: seq<Category>, orderBy: string, order: SearchOrder, y: Category)
    ensures var arm := SelectOrdering(ToLower(orderBy), order);
      SameKeyAs(arm.key, y, CloneCategoriesListOrdered(categories, orderBy, order)) == SameKeyAs(arm.key, y, categories)
  {
    var arm := SelectOrdering(ToLower(orderBy), order);
    SortByStable(arm.key, arm.order, categories, y);
  }

  /** "name" and "id", in any letter case, order by that field in the requested direction. */
  lemma NameAndIdKeysHonourDirection(categories: seq<Category>, orderBy: string, order: SearchOrder)
    ensures ToLower(orderBy) == "name" ==> Sorted(NameKey, order, CloneCategoriesListOrdered(categories, orderBy, order))
    ensures ToLower(orderBy) == "id" ==> Sorted(IdKey, order, CloneCategoriesListOrdered(categories, orderBy, order))
  {
  }

  /** A lower-cased string holds no upper-case letter, so it never equals "createdAt". */
  lemma LoweredKeyIsNeverCreatedAt(orderBy: string)
    ensures ToLower(orderBy) != "createdAt"
  {
    assert "createdAt"[7] == 'A';
  }

  /**
   * Every key other than "name" and "id" (in any letter case), "createdAt"
   * included, gives the name-ascending order whatever the direction.
   */
  lemma OtherKeysFallBackToNameAscending(categories: seq<Category>, orderBy: string, order: SearchOrder)
    requires ToLower(orderBy) != "name" && ToLower(orderBy) != "id"
    ensures CloneCategoriesListOrdered(categories, orderBy, order) == SortBy(NameKey, Asc, categories)
  {
    LoweredKeyIsNeverCreatedAt(orderBy);
  }

  /** Keys that differ only in letter case select the same ordering. */
  lemma KeyMatchingIgnoresCase(categories: seq<Category>, a: string, b: string, order: SearchOrder)
    requires ToLower(a) == ToLower(b)
    ensures CloneCategoriesListOrdered(categories, a, order) == CloneCategoriesListOrdered(categories, b, order)
  {
  }

  /** An instance of `KeyMatchingIgnoresCase`: "NAME" orders like "name". */
  lemma UpperCaseNameMatches(categories: seq<Category>, order: SearchOrder)
    ensures CloneCategoriesListOrdered(categories, "NAME", order) == CloneCategoriesListOrdered(categories, "name", order)
  {
  }

  /** An instance of `KeyMatchingIgnoresCase`: "Id" orders like "id". */
  lemma MixedCaseIdMatches(categories: seq<Category>, order: SearchOrder)
    ensures CloneCategoriesListOrdered(categories, "Id", order) == CloneCategoriesListOrdered(categories, "id", order)
  {
  }

  /**
   * Two categories whose names and creation times are in opposite orders:
   * asked for "createdAt" ascending, the fixture returns them by name, so the
   * later one comes first.
   */
  lemma CreatedAtIsNotHonoured()
    ensures var older := Category(1, "beta", "description", true, 1);
      var newer := Category(2, "alpha", "description", true, 2);
      var r := CloneCategoriesListOrdered([older, newer], "createdAt", Asc);
      r == [newer, older] && !Sorted(CreatedAtKey, Asc, r)
  {
    var older := Category(1, "beta", "description", true, 1);
    var newer := Category(2, "alpha", "description", true, 2);
    var xs := [older, newer];
    OtherKeysFallBackToNameAscending(xs, "createdAt", Asc);
    assert |ToLower("createdAt")| == 9;
    NameOrderOfExample();
    assert xs[0] == older && xs[1..] == [newer];
    assert SortBy(NameKey, Asc, [newer]) == [newer] by {
      assert [newer][1..] == [];
    }
    assert Insert(NameKey, Asc, older, [newer]) == [newer, older] by {
      assert !InOrder(NameKey, Asc, older, newer);
      assert [newer][1..] == [];
      assert [newer] + [older] == [newer, older];
    }
    var r := [newer, older];
    assert !InOrder(CreatedAtKey, Asc, r[0], r[1]);
  }

  lemma NameOrderOfExample()
    ensures !StrLe("beta", "alpha")
  {
    assert "beta"[0] == 'b' && "alpha"[0] == 'a';
  }

  /** The switch with the creation-time arms matching the lower-cased key "createdat". */
  function SelectOrderingIntended(loweredKey: string, order: SearchOrder): (arm: Arm)
    ensures loweredKey == "createdat" ==> arm == Arm(CreatedAtKey, order)
    ensures loweredKey != "createdat" ==> arm == SelectOrdering(loweredKey, order)
  {
    if loweredKey == "createdat" then Arm(CreatedAtKey, order)
    else SelectOrdering(loweredKey, order)
  }

  /** The ordering with reachable creation-time arms. */
  function CloneCategoriesListOrderedIntended(categories: seq<Category>, orderBy: string, order: SearchOrder): (r: seq<Category>)
    ensures multiset(r) == multiset(categories) && |r| == |categories|
    ensures Sorted(SelectOrderingIntended(ToLower(orderBy), order).key, SelectOrderingIntended(ToLower(orderBy), order).order, r)
  {
    var arm := SelectOrderingIntended(ToLower(orderBy), order);
    SortBySorted(arm.key, arm.order, categories);
    SortBy(arm.key, arm.order, categories)
  }

  /**
   * The corrected ordering sorts by creation time for "createdAt" in any
   * letter case and direction, and agrees with the fixture on every other key.
   */
  lemma IntendedOrdersByCreatedAt(categories: seq<Category>, orderBy: string, order: SearchOrder)
    ensures ToLower(orderBy) == "createdat" ==>
      Sorted(CreatedAtKey, order, CloneCategoriesListOrderedIntended(categories, orderBy, order))
    ensures ToLower(orderBy) != "createdat" ==>
      CloneCategoriesListOrderedIntended(categories, orderBy, order) == CloneCategoriesListOrdered(categories, orderBy, order)
  {
  }
}

=== FILE: searchable_repository.dfy ===
/** The generic search request and response shared by list-style repository queries. */
module SearchableRepository {

  datatype SearchOrder = Asc | Desc

  /** `SearchInput(page, perPage, search, orderBy, order)` */
  datatype SearchInput = SearchInput(
    page: int,
    perPage: int,
    search: string,
    orderBy: string,
    order: SearchOrder
  )

  /** `OutputSearch<T>(currentPage, perPage, items, total)` */
  datatype SearchOutput<T> = SearchOutput(
    currentPage: int,
    perPage: int,
    items: seq<T>,
    total: int
  )
}

=== FILE: use_cases.dfy ===
/**
 * The category use cases (Get, Create, Update, Delete, List) as pure
 * functions. Each one returns its result, the committed store afterwards and
 * the trace of calls it made on the repository and the unit of work.
 */
module CategoryUseCases {
  import opened Wrappers
  import opened Exceptions
  import opened DomainValidation
  import opened CategoryEntity
  import opened SearchableRepository
  import opened Repository

  /** `CategoryModelOutput`: the fields of a category as a use case returns them. */
  datatype CategoryModelOutput = CategoryModelOutput(
    id: Id,
    name: string,
    description: string,
    isActive: bool,
    createdAt: Timestamp
  )

  /** `CategoryModelOutput.FromCategory` */
  function FromCategory(c: Category): (o: CategoryModelOutput)
    ensures ToCategory(o) == c
  {
    CategoryModelOutput(c.id, c.name, c.description, c.isActive, c.createdAt)
  }

  /** The category an output describes. */
  function ToCategory(o: CategoryModelOutput): Category {
    Category(o.id, o.name, o.description, o.isActive, o.createdAt)
  }

  /** Every stored category satisfies the aggregate's invariant. */
  ghost predicate ValidStore(store: Store) {
    forall k | k in store :: ValidCategory(store[k])
  }

  /** Storing a valid category keeps every stored category valid. */
  lemma ValidStorePut(store: Store, c: Category)
    ensures ValidStore(store) && ValidCategory(c) ==> ValidStore(store[c.id := c])
  {
  }

  /** Removing a category keeps every remaining one valid. */
  lemma ValidStoreRemove(store: Store, id: Id)
    ensures ValidStore(store) ==> ValidStore(store - {id})
  {
  }

  /** What a use case invocation produced. */
  datatype Execution<T> = Execution(result: Result<T, Error>, store: Store, trace: seq<RepositoryCall>)

  datatype CreateCategoryInput = CreateCategoryInput(name: NullableString, description: NullableString, isActive: bool)

  /** An absent description or flag keeps the stored value. */
  datatype UpdateCategoryInput = UpdateCategoryInput(
    id: Id,
    name: NullableString,
    description: Option<string>,
    isActive: Option<bool>
  )

  datatype ListCategoriesInput = ListCategoriesInput(
    page: int,
    perPage: int,
    search: string,
    sort: string,
    dir: SearchOrder
  )

  datatype ListCategoriesOutput = ListCategoriesOutput(
    page: int,
    perPage: int,
    total: int,
    items: seq<CategoryModelOutput>
  )

  /** GetCategory: loads the category and returns its fields. */
  function GetCategory(store: Store, id: Id): (e: Execution<CategoryModelOutput>)
    ensures e.result.Success? <==> id in store
    ensures e.result.Success? ==> ToCategory(e.result.value) == store[id]
    ensures e.result.Failure? ==> e.result.error == NotFound(id)
    ensures Count(e.trace, GetCall(id)) == 1 && |e.trace| == 1
    ensures e.store == store
    ensures e.store == Committed(store, e.trace)
  {
    var found := Get(store, id);
    NoCommitNoEffect(store, [], [GetCall(id)]);
    if found.Failure? then Execution(Failure(found.error), store, [GetCall(id)])
    else Execution(Success(FromCategory(found.value)), store, [GetCall(id)])
  }

  /**
   * CreateCategory: builds the aggregate with a freshly drawn identifier and
   * clock reading, schedules its insertion and commits. A Guid drawn by
   * `Guid.NewGuid` is never `Guid.Empty` and does not collide with a stored
   * one, and `DateTime.Now` is never the default date.
   */
  function CreateCategory(store: Store, newId: Id, now: Timestamp, input: CreateCategoryInput): (e: Execution<CategoryModelOutput>)
    requires newId !in store
    requires newId != EmptyId && now != DefaultTimestamp
    ensures e.result.Success? <==> ValidName(input.name) && ValidDescription(input.description)
    ensures e.result.Success? ==>
      && e.result.value.name == input.name.value
      && e.result.value.description == input.description.value
      && e.result.value.isActive == input.isActive
      && e.result.value.id == newId
      && e.result.value.createdAt == now
      && e.result.value.id != EmptyId
      && e.result.value.createdAt != DefaultTimestamp
    ensures e.result.Success? ==>
      && e.trace == [CreateCall(ToCategory(e.result.value)), CommitCall]
      && Count(e.trace, CreateCall(ToCategory(e.result.value))) == 1
      && Count(e.trace, CommitCall) == 1
      && e.store == store[newId := ToCategory(e.result.value)]
      && |e.store| == |store| + 1
    ensures e.result.Failure? ==>
      && Validate(input.name, input.description) == Fail(e.result.error)
      && e.trace == []
      && e.store == store
    ensures e.store == Committed(store, e.trace)
    ensures ValidStore(store) ==> ValidStore(e.store)
  {
    var built := CategoryEntity.Create(newId, now, input.name, input.description, input.isActive);
    if built.Failure? then Execution(Failure(built.error), store, [])
    else
      var c := built.value;
      WriteThenCommit(store, [], CreateCall(c));
      ValidStorePut(store, c);
      assert [] + [CreateCall(c), CommitCall] == [CreateCall(c), CommitCall];
      Execution(Success(FromCategory(c)), store[c.id := c], [CreateCall(c), CommitCall])
  }

  /** Applies the optional `isActive` of an update request. */
  function ApplyIsActive(c: Category, isActive: Option<bool>): (r: Category)
    ensures r.isActive == (if isActive.Some? then isActive.value else c.isActive)
    ensures r.(isActive := c.isActive) == c
  {
    if isActive.None? then c
    else if isActive.value then Activate(c)
    else Deactivate(c)
  }

  /**
   * UpdateCategory: loads the category, updates name and description, applies
   * the optional flag, schedules the update and commits. A missing category or
   * an invalid field stops it before any write.
   */
  function UpdateCategory(store: Store, input: UpdateCategoryInput): (e: Execution<CategoryModelOutput>)
    ensures Count(e.trace, GetCall(input.id)) == 1
    ensures e.result.Success? <==>
      && input.id in store
      && ValidName(input.name)
      && ValidDescription(Some(EffectiveDescription(store[input.id], input.description)))
    ensures input.id !in store ==> e.result == Failure(NotFound(input.id))
    ensures input.id in store && e.result.Failure? ==>
      CategoryEntity.Update(store[input.id], input.name, input.description) == Failure(e.result.error)
    ensures e.result.Failure? ==>
      && e.store == store
      && NeverCommits(e.trace)
      && forall k | 0 <= k < |e.trace| :: !e.trace[k].UpdateCall?
    ensures e.result.Success? ==>
      && e.result.value.id == input.id
      && e.result.value.name == input.name.value
      && e.result.value.description
         == (if input.description.Some? then input.description.value else store[input.id].description)
      && e.result.value.isActive
         == (if input.isActive.Some? then input.isActive.value else store[input.id].isActive)
      && e.result.value.createdAt == store[input.id].createdAt
    ensures e.result.Success? ==>
      && Count(e.trace, UpdateCall(ToCategory(e.result.value))) == 1
      && Count(e.trace, CommitCall) == 1
      && e.store == store[input.id := ToCategory(e.result.value)]
    ensures e.store == Committed(store, e.trace)
    ensures ValidStore(store) ==> ValidStore(e.store)
  {
    var found := Get(store, input.id);
    if found.Failure? then
      NoCommitNoEffect(store, [], [GetCall(input.id)]);
      Execution(Failure(found.error), store, [GetCall(input.id)])
    else
      var updated := CategoryEntity.Update(found.value, input.name, input.description);
      if updated.Failure? then
        NoCommitNoEffect(store, [], [GetCall(input.id)]);
        Execution(Failure(updated.error), store, [GetCall(input.id)])
      else
        var c := ApplyIsActive(updated.value, input.isActive);
        var t := [GetCall(input.id), UpdateCall(c), CommitCall];
        WriteThenCommit(store, [GetCall(input.id)], UpdateCall(c));
        assert [GetCall(input.id)] + [UpdateCall(c), CommitCall] == t;
        assert c.id == input.id && ValidCategory(c);
        ValidStorePut(store, c);
        Execution(Success(FromCategory(c)), store[c.id := c], t)
  }

  /**
   * DeleteCategory: loads the category, schedules its deletion and commits.
   * A missing category stops it before any write.
   */
  function DeleteCategory(store: Store, id: Id): (e: Execution<()>)
    ensures Count(e.trace, GetCall(id)) == 1
    ensures e.result.Success? <==> id in store
    ensures e.result.Failure? ==>
      && e.result.error == NotFound(id)
      && e.store == store
      && NeverCommits(e.trace)
    ensures e.result.Success? ==>
      && Count(e.trace, DeleteCall(store[id])) == 1
      && Count(e.trace, CommitCall) == 1
      && id !in e.store
      && e.store.Keys == store.Keys - {id}
      && |e.store| == |store| - 1
      && forall k | k in e.store :: e.store[k] == store[k]
    ensures e.store == Committed(store, e.trace)
    ensures ValidStore(store) ==> ValidStore(e.store)
  {
    var found := Get(store, id);
    if found.Failure? then
      NoCommitNoEffect(store, [], [GetCall(id)]);
      Execution(Failure(found.error), store, [GetCall(id)])
    else
      var c := found.value;
      WriteThenCommit(store, [GetCall(id)], DeleteCall(c));
      assert [GetCall(id)] + [DeleteCall(c), CommitCall] == [GetCall(id), DeleteCall(c), CommitCall];
      assert (store - {id}).Keys == store.Keys - {id};
      ValidStoreRemove(store, id);
      Execution(Success(()), store - {id}, [GetCall(id), DeleteCall(c), CommitCall])
  }

  /** The repository search request a list request is forwarded as. */
  function ToSearchInput(input: ListCategoriesInput): (q: SearchInput)
    ensures q.page == input.page && q.perPage == input.perPage && q.search == input.search
    ensures q.orderBy == input.sort && q.order == input.dir
  {
    SearchInput(input.page, input.perPage, input.search, input.sort, input.dir)
  }

  /**
   * ListCategories: forwards the request to the repository's Search, whose
   * implementation is the parameter `search`, and maps its page of results.
   */
  function ListCategories(
    store: Store, input: ListCategoriesInput, search: SearchInput -> SearchOutput<Category>
  ): (e: Execution<ListCategoriesOutput>)
    ensures |e.trace| == 1 && e.trace[0].SearchCall?
    ensures e.trace[0].input == ToSearchInput(input)
    ensures e.result.Success?
    ensures var found := search(ToSearchInput(input));
      && e.result.value.page == found.currentPage
      && e.result.value.perPage == found.perPage
      && e.result.value.total == found.total
      && |e.result.value.items| == |found.items|
      && forall i | 0 <= i < |found.items| :: ToCategory(e.result.value.items[i]) == found.items[i]
    ensures e.store == store
    ensures e.store == Committed(store, e.trace)
  {
    var query := ToSearchInput(input);
    var found := search(query);
    NoCommitNoEffect(store, [], [SearchCall(query)]);
    var items := seq(|found.items|, i requires 0 <= i < |found.items| => FromCategory(found.items[i]));
    Execution(
      Success(ListCategoriesOutput(found.currentPage, found.perPage, found.total, items)),
      store,
      [SearchCall(query)])
  }

  /** A created category, once committed, is what a later Get returns. */
  lemma CreateThenGet(store: Store, newId: Id, now: Timestamp, input: CreateCategoryInput)
    requires newId !in store && newId != EmptyId && now != DefaultTimestamp
    requires CreateCategory(store, newId, now, input).result.Success?
    ensures var created := CreateCategory(store, newId, now, input);
      GetCategory(created.store, newId).result == created.result
  {
  }

  /** An updated category, once committed, is what a later Get returns. */
  lemma UpdateThenGet(store: Store, input: UpdateCategoryInput)
    requires UpdateCategory(store, input).result.Success?
    ensures var updated := UpdateCategory(store, input);
      GetCategory(updated.store, input.id).result == updated.result
  {
  }

  /** A deleted category is gone: Get and a second Delete report NotFound. */
  lemma DeleteThenGet(store: Store, id: Id)
    requires DeleteCategory(store, id).result.Success?
    ensures GetCategory(DeleteCategory(store, id).store, id).result == Failure(NotFound(id))
    ensures DeleteCategory(DeleteCategory(store, id).store, id).result == Failure(NotFound(id))
  {
  }
}

=== FILE: wrappers.dfy ===
/** Failure-carrying datatypes used in place of the exceptions the catalog throws. */
module Wrappers {

  /** An optional value; `None` stands for a C# `null` or an omitted argument. */
  datatype Option<+T> = None | Some(value: T)

  /** The value of an operation that may fail with an error of type E. */
  datatype Result<+R, +E> = Success(value: R) | Failure(error: E)

  /** The verdict of a check that produces no value: it passes or fails with an error. */
  datatype Outcome<+E> = Pass | Fail(error: E)
}
